=== FILE: README.md ===
# Snap-A-Steg steganographic engine in Dafny

This project models the engine of Snap-A-Steg (`encode_decode.py`). The
engine hides an encrypted message in the least significant bits of an RGB
image.

The embedder builds a bit stream. The stream holds the ciphertext's byte
count as 32 big-endian bits, then the ciphertext bits (most significant bit
first within each byte), then `msg_len // 5` random padding bits. The
embedder refuses a stream longer than the pixel count. Otherwise it writes
bit `i` into the least significant bit of one channel of one pixel. The pixel
is `perm[i]`, where `perm` is a shuffled order of all pixel indices. The
channel is `chan[i]`, where `chan` is a stream of draws from {0, 1, 2}. The
extractor walks the same tape. It reads 32 bits for the byte count `L`, then
`8L` payload bits, and groups them into bytes.

Modules, one per component of the engine:

- `Base`: bytes, bit strings (`'0'`/`'1'` characters, as in the source's strings), powers of two, and the error results.
- `BitConversion`: `convert_to_bits`, `convert_to_bytes`, `int_to_binary` and `binary_to_int`.
- `PixelOrder`: `get_shuffled_pixel_order` as a Fisher–Yates pass with given draws, and pixel index to (row, column).
- `BitStream`: the stream the embedder builds (`FullBits`) and what the extractor makes of the bits it reads (`Unpack`), with their round trip.
- `Steganography`: the embedder and the extractor over an `array3<byte>` of shape h × w × 3. The embedder updates this array in place, as the source updates its numpy array.
- `Capacity`: `calculate_max_message_size`, as written and corrected (see Findings).

Inputs that come from outside the engine are parameters:

- The password-seeded generators become an explicit tape. The tape is a permutation `perm` of `[0, h*w)` and a channel sequence `chan`. The same tape is given to the embedder and the extractor, and both use `chan[i]` for bit `i`.
- The Fisher–Yates draws become a sequence `draws`. Draw `k` is used at position `n-1-k` and is at most that position.
- The padding bits become a bit string of length `(8n)/5`.

Two places where the model's reading of the code needs a word:

- The extractor has no bound check on the declared length. A length that runs past the pixel order raises an index error in the source. `ExtractData` reports this as `Err(ExtractionError)` after reading the 32 prefix bits and before it reads any payload bit, so no bit beyond the image is ever read. When the image has fewer than 32 pixels, it reports the error before reading any bit.
- `calculate_max_message_size` (encode_decode.py:162-167) sets aside 32 bits for the length and then keeps 80% of the rest, the comment on line 166 calling the other 20% "dummy bits". The model reads the intent as "a capacity at or below which every ciphertext fits". The code truncates `usable_bits * .8` toward zero (`int(...)`) before the floor division by 8. `MaxMessageSize` follows the code. On 31-pixel images, the only size where `int()` turns a negative product into 0, the truncation breaks that intent, as recorded under Findings. Smaller images get a negative capacity, which admits no ciphertext.

## Model

| member | source | states |
|---|---|---|
| `BitConversion.ConvertToBits` | encode_decode.py:39-40 | exactly eight `'0'`/`'1'` characters per byte |
| `BitConversion.ByteBitsFormat` | encode_decode.py:39-40 | the eight digits written for a byte are `int_to_binary(byte, 8)`, that is `format(byte, '08b')`, and read as binary they give back the byte |
| `BitConversion.ConvertToBitsChunk` | encode_decode.py:39-40 | characters 8k..8k+7 are the eight digits of `data[k]`, and read as binary they give back `data[k]` (most significant bit first) |
| `BitConversion.ConvertToBytes` | encode_decode.py:42-43 | one byte per group of eight characters, the last group possibly short: `(len+7)/8` bytes |
| `BitConversion.BytesBitsRoundTrip` | encode_decode.py:39-43 | `convert_to_bytes(convert_to_bits(d)) == d` for every byte string |
| `BitConversion.BitsBytesRoundTrip` | encode_decode.py:39-43 | `convert_to_bits(convert_to_bytes(b)) == b` for every bit string whose length is a multiple of 8 |
| `BitConversion.Digits` | encode_decode.py:46 | `format(n, 'b')` is a bit string that is `"0"` or starts with `'1'` |
| `BitConversion.DigitsValue` | encode_decode.py:46 | `format(n, 'b')` denotes n |
| `BitConversion.DigitsFit` | encode_decode.py:45-46 | the numeral of n has at most w digits exactly when n < 2^w |
| `BitConversion.IntToBinary` | encode_decode.py:45-46 | `int_to_binary(n, width)` is a bit string of at least `width` digits |
| `BitConversion.IntToBinaryValue` | encode_decode.py:45-46 | `int_to_binary(n, width)` denotes n: the zeros padded on the left add nothing |
| `BitConversion.IntToBinaryRoundTrip` | encode_decode.py:45-49 | for n < 2^width the prefix is exactly `width` digits, and `binary_to_int` gives back n |
| `BitConversion.IntToBinaryOverflow` | encode_decode.py:45-46 | for n >= 2^width the prefix is longer than `width`, because `format` does not truncate |
| `BitConversion.BinaryToInt` | encode_decode.py:48-49 | `int(b, 2)` of a non-empty bit string is below 2^len(b) |
| `BitConversion.BinaryToIntRoundTrip` | encode_decode.py:45-49 | writing `binary_to_int(b)` back at b's width gives b |
| `BitConversion.BitsValueInjective` | encode_decode.py:48-49 | two bit strings of equal length that denote the same number are equal |
| `PixelOrder.Iota` | encode_decode.py:56 | `list(range(n))` has length n and holds i at position i |
| `PixelOrder.Swap` | encode_decode.py:58 | a shuffle step exchanges two positions and changes nothing else |
| `PixelOrder.Shuffled` | encode_decode.py:56-58 | the list after the first k steps of the shuffle keeps its length; that it stays a permutation and keeps every element is stated by `ShuffledIsPermutation` and `ShuffledKeeps` |
| `PixelOrder.PixelOrderSpec` | encode_decode.py:53-59 | the visiting order of an n-pixel image, `list(range(n))` after all shuffle steps, has n entries, each a pixel index below n |
| `PixelOrder.SwapPreservesPermutation` | encode_decode.py:58 | a swap keeps a permutation a permutation |
| `PixelOrder.ShuffledIsPermutation` | encode_decode.py:53-59 | every prefix of the shuffle keeps a permutation of the pixel indices |
| `PixelOrder.ShuffledKeeps` | encode_decode.py:58 | every prefix of the shuffle keeps each element it started with |
| `PixelOrder.PixelOrderIsPermutation` | encode_decode.py:53-59 | the visiting order lists every pixel index below h*w exactly once |
| `PixelOrder.SwapCells` | encode_decode.py:58 | one in-place step exchanges two cells of the list and leaves the others |
| `PixelOrder.ShuffleRange` | encode_decode.py:56-58 | shuffling `list(range(n))` in place with the given draws yields the specified order |
| `PixelOrder.ShuffledPixelOrder` | encode_decode.py:53-59 | the in-place shuffle of `range(h*w)` returns the specified order, which is a permutation covering every pixel |
| `PixelOrder.PixelCoordinates` | encode_decode.py:84-86 | for idx < h*w, `idx // w < h`, `idx % w < w`, and `row*w + col == idx` |
| `PixelOrder.Row` | encode_decode.py:85 | the row of a pixel index is below h |
| `PixelOrder.Col` | encode_decode.py:86 | the column of a pixel index is below w |
| `PixelOrder.CoordinatesInjective` | encode_decode.py:84-86 | distinct pixel indices give distinct (row, col) pairs, so no pixel is visited twice |
| `BitStream.PrefixRoundTrip` | encode_decode.py:45-49 | a count below 2^32 is written in exactly 32 bits and `binary_to_int` reads it back |
| `BitStream.PaddingCount` | encode_decode.py:72 | `msg_len // 5` for `msg_len = 8n`: the largest r with 5r <= 8n |
| `BitStream.FullBits` | encode_decode.py:67-73 | `full_bits` is a bit string at least `32 + 8n + (8n)//5` long |
| `BitStream.FullBitsLayout` | encode_decode.py:67-73 | for n < 2^32 the stream is exactly `32 + 8n + (8n)//5` bits: n big-endian in the first 32, then the payload bits, then the padding |
| `BitStream.FullBitsPrefixOverflow` | encode_decode.py:69 | for n >= 2^32 the stream is longer than that, because the prefix outgrows 32 bits |
| `BitStream.Unpack` | encode_decode.py:104-124 | the result is an `ExtractionError` exactly when the tape is shorter than 32 bits or than `32 + 8L` |
| `BitStream.UnpackPayload` | encode_decode.py:113-124 | a successful read is L bytes whose bits are exactly tape positions 32..32+8L-1 |
| `BitStream.UnpackFullBits` | encode_decode.py:61-124 | unpacking any tape that starts with the stream gives back the ciphertext, for any padding bits and n < 2^32 |
| `BitStream.UnpackIgnoresSuffix` | encode_decode.py:115-124 | extending a tape that was read successfully does not change the result |
| `Steganography.SetLsb` | encode_decode.py:90 | the written value (v with its lowest bit cleared, then the stream bit added) has `bit` as its least significant bit and keeps the upper seven bits of v |
| `Steganography.Lsb` | encode_decode.py:111 | `str(v & 1)`, as on lines 111 and 122, is a binary digit whose value is v mod 2, the least significant bit of v |
| `Steganography.TapeBits` | encode_decode.py:104-122 | the bits the reading loops find at tape positions lo..hi-1: hi - lo characters, each `'0'` or `'1'` |
| `Steganography.TapeBitsAt` | encode_decode.py:104-122 | character k of those bits is the least significant bit of channel `chan[lo+k]` of pixel `perm[lo+k]` |
| `Steganography.TapeBitsSlice` | encode_decode.py:104-122 | reading positions lo..hi-1 gives the same bits as cutting them out of the read of the whole tape |
| `Steganography.Extracted` | encode_decode.py:104-124 | the extractor's result on the whole tape is `ExtractionError` exactly when the image has fewer than 32 pixels or the count in the first 32 tape bits needs more than h*w bits |
| `Steganography.TapeBitsMatch` | encode_decode.py:104-122 | a tape whose every bit agrees with the stream reads back the whole stream |
| `Steganography.WriteBit` | encode_decode.py:84-91 | one loop step sets the least significant bit of channel `chan[i]` at pixel `perm[i]` and changes no other channel value |
| `Steganography.WriteBits` | encode_decode.py:83-91 | after the loop, every tape cell i holds `SetLsb(old value, bits[i])`, and every channel no tape position reached is unchanged |
| `Steganography.EmbedData` | encode_decode.py:61-93 | `CapacityError` exactly when the stream is longer than h*w, and then nothing is written; otherwise the tape reads back the stream, with only the visited channels' least significant bits changed |
| `Steganography.ReadBits` | encode_decode.py:104-122 | a reading loop returns the bits at tape positions lo..hi-1, in order, consuming `chan[i]` for position i |
| `Steganography.ExtractData` | encode_decode.py:95-124 | the result is the unpacking of the bits along the tape; when it succeeds, `32 + 8L <= h*w` |
| `Steganography.EmbedExtractRoundTrip` | encode_decode.py:61-124 | with the same tape, extraction after a successful embed returns the embedded ciphertext, for any padding bits and n < 2^32 |
| `Steganography.EmbedThenExtract` | encode_decode.py:53-124 | with the same pixel order and channel draws on both sides, embedding then extracting gives `CapacityError` with the image untouched when the stream is longer than h*w, and otherwise returns the ciphertext (n < 2^32) |
| `Capacity.TruncFourFifths` | encode_decode.py:166 | `int(x * .8)` lies within one unit of 4x/5 on the side of zero |
| `Capacity.MaxMessageSize` | encode_decode.py:162-167 | on images of at least 32 pixels the capacity is non-negative and ten times it fits in `w*h - 32` |
| `Capacity.CapacityFits` | encode_decode.py:162-167 | on images of at least 32 pixels, n <= capacity implies that the stream fits (`32 + 8n + (8n)//5 <= w*h`) |
| `Capacity.CapacityTruncationGap` | encode_decode.py:162-167 | a 31-pixel image reports capacity 0, yet even the empty ciphertext's stream is longer than 31 bits |
| `Capacity.CapacityNegativeBelow31` | encode_decode.py:162-167 | on images of at most 30 pixels the reported capacity is negative, so no ciphertext is admitted |
| `Capacity.CapacityFitsExcept31` | encode_decode.py:162-167 | on every image except one of exactly 31 pixels, n <= capacity implies that the stream fits |
| `Capacity.MaxMessageSizeFloor` | encode_decode.py:162-167 | the corrected capacity is negative exactly when the image has fewer than 32 pixels |
| `Capacity.CapacityFloorFits` | encode_decode.py:162-167 | with the corrected capacity, n <= capacity implies the stream fits, on every image |
| `Capacity.CapacityFloorAgrees` | encode_decode.py:162-167 | the two capacities agree on images of at least 32 pixels |
| `Capacity.CapacityAdmitsStream` | encode_decode.py:72-80 | a ciphertext within the corrected capacity gives a stream that passes the embedder's length check |

## Left out

- Fernet encryption, decryption and key generation (`generate_secure_key`, `encode_data`, `decode_data`, and the Fernet calls in `encrypt_and_embed_message` and `extract_and_decrypt_message`) are calls into the `cryptography` library. The ciphertext is opaque bytes here.
- `extract_and_decrypt_message` turns every failure into one `ValueError` whose message names the cause. It also rejects an empty extraction. This is error-message glue around decryption and is not modelled.
- The SHA-256 seed derivation and Python's Mersenne Twister (`random.Random`, `shuffle`, `choice`) are foreign generators. They become the `draws`, `perm` and `chan` parameters, and the same tape is given to the embedder and the extractor. The claim that the same password gives the same tape is therefore an assumption of the model, not a result.
- The padding from `random.randint` is ambient randomness. It is a parameter here.
- PIL and numpy conversion (`convert("RGB")`, `np.array`, `fromarray`, `astype`) is image I/O. The model's array stands for the numpy copy that the embedder writes into.
- `Capacity.CapacityFits` and `Capacity.CapacityFloorFits` bound the stream by the ciphertext's byte count, which is what `calculate_max_message_size` measures. Its only caller, ui_helpers.py:50-52, compares the capacity with the plaintext's UTF-8 byte count instead. The Fernet ciphertext that is actually embedded is longer than the plaintext, and Fernet is outside this model. So these lemmas are no guarantee that a message the app admits will fit.
- `Capacity.TruncFourFifths`: the float product `x * .8` is modelled as the exact 4x/5 cut toward zero. The two can differ only when the float product loses integer precision, which happens for images with around 2^50 pixels or more.
- `Capacity.CapacityAdmitsStream` assumes fewer than 2^32 ciphertext bytes, so that the stream has the layout in `FullBitsLayout`. Beyond that the prefix is longer (`FullBitsPrefixOverflow`), and the model does not prove that the stream still fits.
- `Steganography.EmbedThenExtract` assumes fewer than 2^32 ciphertext bytes, as `EmbedExtractRoundTrip` does. For longer ciphertexts the prefix no longer has 32 bits (`FullBitsPrefixOverflow`), and the model promises nothing about the result.
- `BitConversion.BinaryToInt` requires a non-empty string of `'0'`/`'1'`. Python's `int(b, 2)` also accepts signs, underscores and a `0b` prefix, but the engine never passes those.
- `PixelOrder.ShuffledPixelOrder` fixes the structure of the shuffle: a swap at each position from the last down to 1, with a drawn partner at or below it. It does not model how the generator produces the draws.
- ui_helpers.py is Kivy widget state (password visibility, strength checklist, button enabling). It is not part of this model.

## Findings

| source | as written | input that shows it | evidently intended | confidence | as-written member | corrected member |
|---|---|---|---|---|---|---|
| encode_decode.py:162-167 | `int(usable_bits * .8)` truncates toward zero, so `usable_bits = -1` gives 0 and the capacity is `0 // 8 = 0` | a 31×1 image: capacity 0 is reported, but even an empty ciphertext needs 32 bits and the embedder raises `ValueError` | a capacity at or below which every ciphertext fits, as the floor throughout gives (`floor(-0.1) = -1`) | not executed; follows from Python's `int` and `//` semantics | `Capacity.CapacityTruncationGap` | `Capacity.CapacityFloorFits` |

=== FILE: Base.dfy ===
/** Shared vocabulary of the steganographic engine: bytes, bit strings,
    powers of two and the error results the engine reports. */
module Base {

  /** One 8-bit unsigned channel value or ciphertext byte. */
  newtype byte = x: int | 0 <= x < 256

  /** The engine's two failure kinds: the packed stream does not fit the
      image (raised by the embedder), or the declared length asks for more
      bits than the image holds (the extractor's out-of-range read). */
  datatype StegoError = CapacityError | ExtractionError

  datatype Result<T> = Ok(value: T) | Err(error: StegoError)

  datatype Outcome = Pass | Fail(error: StegoError)

  /** A string made only of the characters '0' and '1'. */
  predicate IsBitString(s: seq<char>)
  {
    forall i :: 0 <= i < |s| ==> s[i] == '0' || s[i] == '1'
  }

  function Pow2(k: nat): (p: nat)
    ensures p >= 1
  {
    if k == 0 then 1 else 2 * Pow2(k - 1)
  }

  lemma {:induction false} Pow2Monotone(a: nat, b: nat)
    requires a <= b
    ensures Pow2(a) <= Pow2(b)
  {
    if a < b {
      Pow2Monotone(a, b - 1);
    }
  }

  lemma {:induction false} Pow2Add(a: nat, b: nat)
    ensures Pow2(a + b) == Pow2(a) * Pow2(b)
  {
    if b > 0 {
      Pow2Add(a, b - 1);
      var x, y := Pow2(a), Pow2(b - 1);
      assert Pow2(a + b) == 2 * (x * y);
      assert x * (2 * y) == 2 * (x * y);
    }
  }

  lemma Pow2Byte()
    ensures Pow2(8) == 256
  {
  }
}

=== FILE: BitConversion.dfy ===
/** The bit and number conversions of the engine: bytes to MSB-first
    binary strings and back (convert_to_bits, convert_to_bytes) and the
    fixed-width length prefix (int_to_binary, binary_to_int). Bits are the
    characters '0' and '1', as in the source's strings. */
module BitConversion {
  import opened Base

  function DigitChar(d: nat): char
    requires d < 2
  {
    if d == 1 then '1' else '0'
  }

  function BitOf(c: char): nat
  {
    if c == '1' then 1 else 0
  }

  /** The number a big-endian binary string denotes: its last character is
      the least significant digit. */
  function BitsValue(s: seq<char>): (v: nat)
    ensures v < Pow2(|s|)
  {
    if s == [] then 0 else 2 * BitsValue(s[..|s| - 1]) + BitOf(s[|s| - 1])
  }

  lemma BitsValueSnoc(s: seq<char>, c: char)
    ensures BitsValue(s + [c]) == 2 * BitsValue(s) + BitOf(c)
  {
    assert (s + [c])[..|s|] == s;
  }

  lemma MulDouble(x: int, p: int)
    ensures x * (2 * p) == 2 * (x * p)
  {
  }

  /** Reading a string in two parts: the high part is shifted by the width
      of the low part. */
  lemma {:induction false} BitsValueConcat(a: seq<char>, b: seq<char>)
    ensures BitsValue(a + b) == BitsValue(a) * Pow2(|b|) + BitsValue(b)
  {
    if b == [] {
      assert a + b == a;
    } else {
      var init, c := b[..|b| - 1], b[|b| - 1];
      assert a + b == (a + init) + [c];
      BitsValueSnoc(a + init, c);
      BitsValueConcat(a, init);
      var x, p, y := BitsValue(a), Pow2(|init|), BitsValue(init);
      assert BitsValue(a + b) == 2 * BitsValue(a + init) + BitOf(c);
      assert BitsValue(a + init) == x * p + y;
      assert BitsValue(b) == 2 * y + BitOf(c);
      assert Pow2(|b|) == 2 * p;
      MulDouble(x, p);
    }
  }

  /** Two binary strings of the same length that denote the same number are
      the same string: the representation is unique. */
  lemma {:induction false} BitsValueInjective(a: seq<char>, b: seq<char>)
    requires IsBitString(a) && IsBitString(b) && |a| == |b|
    requires BitsValue(a) == BitsValue(b)
    ensures a == b
  {
    if a != [] {
      var n := |a|;
      var ia, ib := a[..n - 1], b[..n - 1];
      assert BitsValue(a) % 2 == BitOf(a[n - 1]);
      assert BitsValue(b) % 2 == BitOf(b[n - 1]);
      assert a[n - 1] == b[n - 1];
      assert BitsValue(ia) == BitsValue(ib);
      assert IsBitString(ia) && IsBitString(ib);
      BitsValueInjective(ia, ib);
      assert a == ia + [a[n - 1]] && b == ib + [b[n - 1]];
    }
  }

  /** format(n, 'b'): the shortest binary numeral of n, which is "0" for
      zero and otherwise starts with '1'. */
  function Digits(n: nat): (s: seq<char>)
    ensures IsBitString(s)
    ensures |s| >= 1 && (s == ['0'] || s[0] == '1')
    decreases n
  {
    if n < 2 then [DigitChar(n)] else Digits(n / 2) + [DigitChar(n % 2)]
  }

  /** The numeral of n denotes n. */
  lemma {:induction false} DigitsValue(n: nat)
    ensures BitsValue(Digits(n)) == n
    decreases n
  {
    if n >= 2 {
      DigitsValue(n / 2);
      BitsValueSnoc(Digits(n / 2), DigitChar(n % 2));
    }
  }

  /** A numeral of n fits in w digits exactly when n is below 2^w. */
  lemma {:induction false} DigitsFit(n: nat, w: nat)
    requires w >= 1
    ensures |Digits(n)| <= w <==> n < Pow2(w)
    decreases n
  {
    if n < 2 {
      Pow2Monotone(1, w);
    } else if w == 1 {
      assert |Digits(n)| == |Digits(n / 2)| + 1;
    } else {
      assert |Digits(n)| == |Digits(n / 2)| + 1;
      DigitsFit(n / 2, w - 1);
    }
  }

  function Zeros(k: nat): (s: seq<char>)
    ensures |s| == k && IsBitString(s)
  {
    if k == 0 then [] else Zeros(k - 1) + ['0']
  }

  lemma {:induction false} ZerosValue(k: nat)
    ensures BitsValue(Zeros(k)) == 0
  {
    if k > 0 {
      ZerosValue(k - 1);
      BitsValueSnoc(Zeros(k - 1), '0');
    }
  }

  /** int_to_binary(n, width) = format(n, f'0{width}b'): a binary numeral of
      n padded on the left with zeros to at least width digits. A number
      that needs more digits is not truncated. */
  function IntToBinary(n: nat, width: nat): (s: seq<char>)
    ensures IsBitString(s)
    ensures |s| >= width
  {
    if |Digits(n)| < width then Zeros(width - |Digits(n)|) + Digits(n) else Digits(n)
  }

  /** Leading zeros add nothing to the value of a numeral. */
  lemma LeadingZeros(k: nat, d: seq<char>)
    ensures BitsValue(Zeros(k) + d) == BitsValue(d)
  {
    ZerosValue(k);
    BitsValueConcat(Zeros(k), d);
    assert BitsValue(Zeros(k)) * Pow2(|d|) == 0;
  }

  /** The padded numeral still denotes n. */
  lemma IntToBinaryValue(n: nat, width: nat)
    ensures BitsValue(IntToBinary(n, width)) == n
  {
    DigitsValue(n);
    if |Digits(n)| < width {
      LeadingZeros(width - |Digits(n)|, Digits(n));
    }
  }

  /** binary_to_int(b) = int(b, 2); Python rejects the empty string. */
  function BinaryToInt(b: seq<char>): (n: nat)
    requires IsBitString(b) && |b| > 0
    ensures n < Pow2(|b|)
  {
    BitsValue(b)
  }

  /** A number below 2^width round-trips through the fixed-width prefix,
      which is then exactly width digits long. */
  lemma IntToBinaryRoundTrip(n: nat, width: nat)
    requires width >= 1 && n < Pow2(width)
    ensures |IntToBinary(n, width)| == width
    ensures BinaryToInt(IntToBinary(n, width)) == n
  {
    DigitsFit(n, width);
    IntToBinaryValue(n, width);
  }

  /** A number of 2^width or more gets a longer numeral: the prefix grows
      past its nominal width. */
  lemma IntToBinaryOverflow(n: nat, width: nat)
    requires width >= 1 && n >= Pow2(width)
    ensures |IntToBinary(n, width)| > width
  {
    DigitsFit(n, width);
  }

  /** The other direction: a binary string read as a number and written back
      at its own width is the same string. */
  lemma BinaryToIntRoundTrip(b: seq<char>)
    requires IsBitString(b) && |b| > 0
    ensures IntToBinary(BinaryToInt(b), |b|) == b
  {
    var n := BinaryToInt(b);
    IntToBinaryRoundTrip(n, |b|);
    BitsValueInjective(IntToBinary(n, |b|), b);
  }

  /** The low w binary digits of v, most significant first. */
  function FixedBits(v: nat, w: nat): (s: seq<char>)
    ensures |s| == w && IsBitString(s)
  {
    if w == 0 then [] else FixedBits(v / 2, w - 1) + [DigitChar(v % 2)]
  }

  lemma {:induction false} FixedBitsValue(v: nat, w: nat)
    requires v < Pow2(w)
    ensures BitsValue(FixedBits(v, w)) == v
  {
    if w > 0 {
      FixedBitsValue(v / 2, w - 1);
      BitsValueSnoc(FixedBits(v / 2, w - 1), DigitChar(v % 2));
    }
  }

  /** format(byte, '08b'): the eight digits of a byte. Written as the low
      eight digits rather than as IntToBinary(b, 8), whose padding case
      split makes every proof about ConvertToBits costlier; ByteBitsFormat
      shows the two agree. */
  function ByteBits(b: byte): (s: seq<char>)
    ensures |s| == 8 && IsBitString(s)
  {
    FixedBits(b as nat, 8)
  }

  /** The eight digits of a byte are int_to_binary(byte, 8), and read back
      as the byte. */
  lemma ByteBitsFormat(b: byte)
    ensures ByteBits(b) == IntToBinary(b as nat, 8)
    ensures BinaryToInt(ByteBits(b)) == b as nat
  {
    Pow2Byte();
    FixedBitsValue(b as nat, 8);
    IntToBinaryRoundTrip(b as nat, 8);
    BitsValueInjective(ByteBits(b), IntToBinary(b as nat, 8));
  }

  /** convert_to_bits: every byte as format(byte, '08b'), concatenated. */
  function ConvertToBits(data: seq<byte>): (bits: seq<char>)
    ensures |bits| == 8 * |data| && IsBitString(bits)
  {
    if data == [] then [] else ByteBits(data[0]) + ConvertToBits(data[1..])
  }

  lemma SliceOfConcat(x: seq<char>, y: seq<char>, i: nat, j: nat)
    requires i <= j <= |x| + |y|
    ensures j <= |x| ==> (x + y)[i..j] == x[i..j]
    ensures |x| <= i ==> (x + y)[i..j] == y[i - |x|..j - |x|]
  {
  }

  /** The three parts of x + (y + z) are found at their offsets. */
  lemma ConcatParts(x: seq<char>, y: seq<char>, z: seq<char>)
    ensures (x + (y + z))[..|x|] == x
    ensures (x + (y + z))[|x| .. |x| + |y|] == y
    ensures (x + (y + z))[|x| + |y| ..] == z
  {
  }

  /** A stretch inside a known prefix of t reads as that stretch of the
      prefix. */
  lemma SliceOfPrefix(t: seq<char>, p: seq<char>, i: nat, j: nat)
    requires |p| <= |t| && t[..|p|] == p && i <= j <= |p|
    ensures t[i..j] == p[i..j] && t[..j] == p[..j]
  {
    forall k | 0 <= k < |p|
      ensures t[k] == p[k]
    {
      assert t[..|p|][k] == t[k];
    }
  }

  /** Byte k of the input occupies digits 8k .. 8k+7 of the bit string,
      most significant digit first: read as binary they give the byte back. */
  lemma {:induction false} ConvertToBitsChunk(data: seq<byte>, k: nat)
    requires k < |data|
    ensures ConvertToBits(data)[8 * k .. 8 * k + 8] == ByteBits(data[k])
    ensures BinaryToInt(ConvertToBits(data)[8 * k .. 8 * k + 8]) == data[k] as nat
  {
    var head, rest := ByteBits(data[0]), ConvertToBits(data[1..]);
    if k == 0 {
      SliceOfConcat(head, rest, 0, 8);
    } else {
      ConvertToBitsChunk(data[1..], k - 1);
      SliceOfConcat(head, rest, 8 * k, 8 * k + 8);
      assert data[1..][k - 1] == data[k];
    }
    ByteBitsFormat(data[k]);
  }

  /** convert_to_bytes: cut the string into groups of eight (the last group
      may be shorter) and read each group as a binary number. */
  function ConvertToBytes(bits: seq<char>): (data: seq<byte>)
    requires IsBitString(bits)
    ensures |data| == (|bits| + 7) / 8
    decreases |bits|
  {
    if bits == [] then []
    else
      var k := if |bits| < 8 then |bits| else 8;
      Pow2Monotone(k, 8);
      Pow2Byte();
      [BinaryToInt(bits[..k]) as byte] + ConvertToBytes(bits[k..])
  }

  /** convert_to_bytes undoes convert_to_bits. */
  lemma {:induction false} BytesBitsRoundTrip(data: seq<byte>)
    ensures ConvertToBytes(ConvertToBits(data)) == data
  {
    if data != [] {
      var bits, head, rest := ConvertToBits(data), ByteBits(data[0]), ConvertToBits(data[1..]);
      ByteBitsFormat(data[0]);
      assert bits[..8] == head && bits[8..] == rest;
      BytesBitsRoundTrip(data[1..]);
    }
  }

  lemma ConvertToBytesCons(bits: seq<char>)
    requires IsBitString(bits) && |bits| >= 8
    ensures ConvertToBytes(bits)[0] as nat == BinaryToInt(bits[..8])
    ensures ConvertToBytes(bits)[1..] == ConvertToBytes(bits[8..])
  {
  }

  /** 8n bits are n whole bytes. */
  lemma WholeBytes(n: nat)
    ensures (8 * n) % 8 == 0 && (8 * n + 7) / 8 == n
  {
  }

  lemma WholeBytesTail(x: int)
    requires x >= 8 && x % 8 == 0
    ensures (x - 8) % 8 == 0
  {
  }

  /** convert_to_bits undoes convert_to_bytes on whole bytes. */
  lemma {:induction false} BitsBytesRoundTrip(bits: seq<char>)
    requires IsBitString(bits) && |bits| % 8 == 0
    ensures ConvertToBits(ConvertToBytes(bits)) == bits
    decreases |bits|
  {
    if bits != [] {
      var data := ConvertToBytes(bits);
      var head, tail := bits[..8], bits[8..];
      ConvertToBytesCons(bits);
      ByteBitsFormat(data[0]);
      BinaryToIntRoundTrip(head);
      WholeBytesTail(|bits|);
      assert IsBitString(tail);
      BitsBytesRoundTrip(tail);
      assert ConvertToBits(data) == head + tail;
      assert bits == head + tail;
    }
  }
}

=== FILE: BitStream.dfy ===
/** The bit stream the embedder writes and the extractor reads back: a
    32-bit count of ciphertext bytes, the ciphertext's bits, then padding
    bits whose number is a fifth of the payload bits (rounded down). */
module BitStream {
  import opened Base
  import opened BitConversion

  /** Width of the length prefix, in bits. */
  const PrefixWidth: nat := 32

  /** 2^32: the counts the prefix can hold. */
  const PrefixLimit: nat := 0x1_0000_0000

  lemma PrefixLimitValue()
    ensures Pow2(PrefixWidth) == PrefixLimit
  {
    Pow2Byte();
    Pow2Add(8, 8);
    Pow2Add(16, 16);
  }

  /** A count below 2^32 is written in exactly 32 bits and read back. */
  lemma PrefixRoundTrip(n: nat)
    requires n < PrefixLimit
    ensures |IntToBinary(n, PrefixWidth)| == PrefixWidth
    ensures BinaryToInt(IntToBinary(n, PrefixWidth)) == n
  {
    PrefixLimitValue();
    IntToBinaryRoundTrip(n, PrefixWidth);
  }

  /** msg_len // 5, where msg_len is the number of payload bits: a fifth
      of the payload, rounded down. */
  function PaddingCount(cipherLen: nat): (r: nat)
    ensures 5 * r <= 8 * cipherLen < 5 * r + 5
  {
    (8 * cipherLen) / 5
  }

  /** full_bits = len_bits + message_bits + dummy_bits. The dummy bits come
      from an ambient generator in the source and are a parameter here. */
  function FullBits(cipher: seq<byte>, padding: seq<char>): (bits: seq<char>)
    requires IsBitString(padding) && |padding| == PaddingCount(|cipher|)
    ensures IsBitString(bits)
    ensures |bits| >= PrefixWidth + 8 * |cipher| + PaddingCount(|cipher|)
  {
    IntToBinary(|cipher|, PrefixWidth) + (ConvertToBits(cipher) + padding)
  }

  /** For a ciphertext of fewer than 2^32 bytes the stream is exactly
      32 + 8n + (8n)/5 bits: the byte count n in 32 big-endian bits, the
      payload bits, then the padding. */
  lemma FullBitsLayout(cipher: seq<byte>, padding: seq<char>)
    requires IsBitString(padding) && |padding| == PaddingCount(|cipher|)
    requires |cipher| < PrefixLimit
    ensures |FullBits(cipher, padding)| == PrefixWidth + 8 * |cipher| + PaddingCount(|cipher|)
    ensures BinaryToInt(FullBits(cipher, padding)[..PrefixWidth]) == |cipher|
    ensures FullBits(cipher, padding)[PrefixWidth .. PrefixWidth + 8 * |cipher|] == ConvertToBits(cipher)
    ensures FullBits(cipher, padding)[PrefixWidth + 8 * |cipher| ..] == padding
  {
    PrefixRoundTrip(|cipher|);
    ConcatParts(IntToBinary(|cipher|, PrefixWidth), ConvertToBits(cipher), padding);
  }

  /** A ciphertext of 2^32 bytes or more gets a prefix longer than 32 bits,
      so the stream no longer has the layout the extractor expects. */
  lemma FullBitsPrefixOverflow(cipher: seq<byte>, padding: seq<char>)
    requires IsBitString(padding) && |padding| == PaddingCount(|cipher|)
    requires |cipher| >= PrefixLimit
    ensures |FullBits(cipher, padding)| > PrefixWidth + 8 * |cipher| + PaddingCount(|cipher|)
  {
    PrefixLimitValue();
    IntToBinaryOverflow(|cipher|, PrefixWidth);
  }

  /** What the extractor makes of the bits found along the tape: the first
      32 give the byte count L, the next 8L are the payload, the rest is
      never read. A count that asks for more bits than the tape holds is an
      error (the source would index past the pixel order). */
  function Unpack(tape: seq<char>): (r: Result<seq<byte>>)
    requires IsBitString(tape)
    ensures r.Err? <==>
      |tape| < PrefixWidth || PrefixWidth + 8 * BinaryToInt(tape[..PrefixWidth]) > |tape|
    ensures r.Err? ==> r.error == ExtractionError
  {
    if |tape| < PrefixWidth then Err(ExtractionError)
    else
      var count := BinaryToInt(tape[..PrefixWidth]);
      if PrefixWidth + 8 * count > |tape| then Err(ExtractionError)
      else Ok(ConvertToBytes(tape[PrefixWidth .. PrefixWidth + 8 * count]))
  }

  /** Unpack on a tape long enough for its declared count: the result is the
      bytes of tape positions 32 .. 32+8L-1. */
  lemma UnpackOk(tape: seq<char>, count: nat, payload: seq<char>)
    requires IsBitString(tape) && |tape| >= PrefixWidth
    requires count == BinaryToInt(tape[..PrefixWidth]) && PrefixWidth + 8 * count <= |tape|
    requires payload == tape[PrefixWidth .. PrefixWidth + 8 * count]
    ensures IsBitString(payload)
    ensures Unpack(tape) == Ok(ConvertToBytes(payload))
  {
  }

  /** A successful read returns L bytes, and their bits are exactly tape
      positions 32 .. 32+8L-1. */
  lemma UnpackPayload(tape: seq<char>)
    requires IsBitString(tape) && Unpack(tape).Ok?
    ensures |Unpack(tape).value| == BinaryToInt(tape[..PrefixWidth])
    ensures ConvertToBits(Unpack(tape).value) ==
      tape[PrefixWidth .. PrefixWidth + 8 * BinaryToInt(tape[..PrefixWidth])]
  {
    UnpackOk(tape, BinaryToInt(tape[..PrefixWidth]),
      tape[PrefixWidth .. PrefixWidth + 8 * BinaryToInt(tape[..PrefixWidth])]);
    WholeBytes(BinaryToInt(tape[..PrefixWidth]));
    BitsBytesRoundTrip(tape[PrefixWidth .. PrefixWidth + 8 * BinaryToInt(tape[..PrefixWidth])]);
  }

  /** The round trip of the packer: whatever padding was drawn and whatever
      bits follow the stream on the tape, unpacking gives the ciphertext. */
  lemma UnpackFullBits(cipher: seq<byte>, padding: seq<char>, tape: seq<char>)
    requires IsBitString(padding) && |padding| == PaddingCount(|cipher|)
    requires |cipher| < PrefixLimit
    requires IsBitString(tape) && |FullBits(cipher, padding)| <= |tape|
    requires tape[..|FullBits(cipher, padding)|] == FullBits(cipher, padding)
    ensures Unpack(tape) == Ok(cipher)
  {
    FullBitsLayout(cipher, padding);
    SliceOfPrefix(tape, FullBits(cipher, padding), 0, PrefixWidth);
    SliceOfPrefix(tape, FullBits(cipher, padding), PrefixWidth, PrefixWidth + 8 * |cipher|);
    UnpackOk(tape, |cipher|, ConvertToBits(cipher));
    BytesBitsRoundTrip(cipher);
  }

  /** Bits after a successfully read message do not change what is read. */
  lemma UnpackIgnoresSuffix(tape: seq<char>, longer: seq<char>)
    requires IsBitString(tape) && IsBitString(longer)
    requires |tape| <= |longer| && longer[..|tape|] == tape
    requires Unpack(tape).Ok?
    ensures Unpack(longer) == Unpack(tape)
  {
    SliceOfPrefix(longer, tape, 0, PrefixWidth);
    SliceOfPrefix(longer, tape, PrefixWidth, PrefixWidth + 8 * BinaryToInt(tape[..PrefixWidth]));
    UnpackOk(tape, BinaryToInt(tape[..PrefixWidth]),
      tape[PrefixWidth .. PrefixWidth + 8 * BinaryToInt(tape[..PrefixWidth])]);
    UnpackOk(longer, BinaryToInt(tape[..PrefixWidth]),
      tape[PrefixWidth .. PrefixWidth + 8 * BinaryToInt(tape[..PrefixWidth])]);
  }
}

=== FILE: Capacity.dfy ===
/** calculate_max_message_size: the byte capacity of an image, after 32
    bits reserved for the length prefix and a fifth of the rest kept for
    padding. The source computes int((w*h - 32) * .8) // 8; the model does
    the float product as the exact rational (x*4)/5 cut toward zero, as
    int() cuts, followed by a floor division. */
module Capacity {
  import opened Base
  import opened BitStream

  /** int(x * .8): four fifths of x, truncated toward zero. */
  function TruncFourFifths(x: int): (r: int)
    ensures x >= 0 ==> 5 * r <= 4 * x < 5 * r + 5
    ensures x < 0 ==> 5 * r - 5 < 4 * x <= 5 * r
  {
    if x >= 0 then (x * 4) / 5 else -((-x * 4) / 5)
  }

  /** calculate_max_message_size, as written. */
  function MaxMessageSize(width: nat, height: nat): (r: int)
    ensures width * height >= PrefixWidth ==> 0 <= 10 * r <= width * height - PrefixWidth
  {
    TruncFourFifths(width * height - PrefixWidth) / 8
  }

  /** On an image of at least 32 pixels, a ciphertext within the reported
      capacity always passes the embedder's length check. */
  lemma CapacityFits(width: nat, height: nat, n: nat)
    requires width * height >= PrefixWidth
    requires n <= MaxMessageSize(width, height)
    ensures PrefixWidth + 8 * n + PaddingCount(n) <= width * height
  {
  }

  /** Below 31 pixels the as-written capacity is negative, so it admits no
      ciphertext at all. */
  lemma CapacityNegativeBelow31(width: nat, height: nat)
    requires width * height <= 30
    ensures MaxMessageSize(width, height) < 0
  {
  }

  /** The as-written capacity is sound on every image except those of
      exactly 31 pixels. */
  lemma CapacityFitsExcept31(width: nat, height: nat, n: nat)
    requires width * height != 31
    requires n <= MaxMessageSize(width, height)
    ensures PrefixWidth + 8 * n + PaddingCount(n) <= width * height
  {
    if width * height <= 30 {
      CapacityNegativeBelow31(width, height);
    } else {
      CapacityFits(width, height, n);
    }
  }

  /** The as-written capacity of a 31-pixel image is 0 bytes, yet even an
      empty ciphertext needs a 32-bit stream: int() rounds -0.8 up to 0. */
  lemma CapacityTruncationGap()
    ensures MaxMessageSize(31, 1) == 0
    ensures |FullBits([], [])| > 31 * 1
  {
  }

  /** The capacity with the floor taken throughout: 80% of the bits left
      after the 32-bit prefix, rounded down, then whole bytes. It is negative
      when nothing fits. */
  function MaxMessageSizeFloor(width: nat, height: nat): (r: int)
    ensures width * height < PrefixWidth <==> r < 0
  {
    ((width * height - PrefixWidth) * 4 / 5) / 8
  }

  /** With the floor, every ciphertext within the capacity fits, on every
      image. */
  lemma CapacityFloorFits(width: nat, height: nat, n: nat)
    requires n <= MaxMessageSizeFloor(width, height)
    ensures PrefixWidth + 8 * n + PaddingCount(n) <= width * height
  {
  }

  /** The two capacities differ only on images of fewer than 32 pixels. */
  lemma CapacityFloorAgrees(width: nat, height: nat)
    requires width * height >= PrefixWidth
    ensures MaxMessageSizeFloor(width, height) == MaxMessageSize(width, height)
  {
  }

  /** A ciphertext within the corrected capacity yields a stream that the
      embedder accepts. */
  lemma CapacityAdmitsStream(cipher: seq<byte>, padding: seq<char>, width: nat, height: nat)
    requires IsBitString(padding) && |padding| == PaddingCount(|cipher|)
    requires |cipher| < PrefixLimit
    requires |cipher| <= MaxMessageSizeFloor(width, height)
    ensures |FullBits(cipher, padding)| <= width * height
  {
    FullBitsLayout(cipher, padding);
    CapacityFloorFits(width, height, |cipher|);
  }
}

=== FILE: PixelOrder.dfy ===
/** get_shuffled_pixel_order: the order in which the embedder and the
    extractor visit pixels. The source fills a list with 0 .. h*w-1 and
    shuffles it in place with a generator seeded from the password hash.
    Here the shuffle is a Fisher-Yates pass (walking i from n-1 down to 1
    and swapping position i with a drawn position j <= i) whose draws are
    an input, so the model fixes the shuffle's structure and leaves the
    generator out. */
module PixelOrder {

  /** 0, 1, ..., n-1: the list the source builds before shuffling. */
  function Iota(n: nat): (s: seq<int>)
    ensures |s| == n && forall i :: 0 <= i < n ==> s[i] == i
  {
    if n == 0 then [] else Iota(n - 1) + [n - 1]
  }

  /** p lists every pixel index of an image of n pixels exactly once. */
  predicate IsPermutation(p: seq<int>, n: nat)
  {
    |p| == n &&
    (forall i :: 0 <= i < n ==> 0 <= p[i] < n) &&
    (forall i, j :: 0 <= i < j < n ==> p[i] != p[j])
  }

  function Swap(s: seq<int>, i: nat, j: nat): (t: seq<int>)
    requires i < |s| && j < |s|
    ensures |t| == |s| && t[i] == s[j] && t[j] == s[i]
    ensures forall k :: 0 <= k < |s| && k != i && k != j ==> t[k] == s[k]
  {
    s[i := s[j]][j := s[i]]
  }

  /** Number of swaps the shuffle performs on a list of n elements. */
  function Steps(n: nat): nat
  {
    if n == 0 then 0 else n - 1
  }

  /** The draws a shuffle of n elements may consume: draw k is taken for
      position i = n-1-k and lies in 0 .. i. */
  predicate DrawsFit(draws: seq<int>, n: nat)
  {
    |draws| >= Steps(n) &&
    forall k :: 0 <= k < Steps(n) ==> 0 <= draws[k] < n - k
  }

  /** s after the first k swaps of the shuffle. */
  function Shuffled(s: seq<int>, draws: seq<int>, k: nat): (t: seq<int>)
    requires DrawsFit(draws, |s|) && k <= Steps(|s|)
    ensures |t| == |s|
  {
    if k == 0 then s
    else Swap(Shuffled(s, draws, k - 1), |s| - k, draws[k - 1])
  }

  /** The visiting order of an n-pixel image for the given draws: n
      entries, each a pixel index below n. */
  function PixelOrderSpec(n: nat, draws: seq<int>): (order: seq<int>)
    requires DrawsFit(draws, n)
    ensures |order| == n
    ensures forall i :: 0 <= i < n ==> 0 <= order[i] < n
  {
    ShuffledIsPermutation(Iota(n), draws, Steps(n));
    Shuffled(Iota(n), draws, Steps(n))
  }

  lemma SwapPreservesPermutation(p: seq<int>, n: nat, i: nat, j: nat)
    requires IsPermutation(p, n) && i < n && j < n
    ensures IsPermutation(Swap(p, i, j), n)
  {
    var t := Swap(p, i, j);
    forall a, b | 0 <= a < b < n
      ensures t[a] != t[b]
    {
      var a' := if a == i then j else if a == j then i else a;
      var b' := if b == i then j else if b == j then i else b;
      assert t[a] == p[a'] && t[b] == p[b'] && a' != b';
    }
  }

  /** Every prefix of the shuffle keeps a permutation a permutation. */
  lemma {:induction false} ShuffledIsPermutation(s: seq<int>, draws: seq<int>, k: nat)
    requires IsPermutation(s, |s|)
    requires DrawsFit(draws, |s|) && k <= Steps(|s|)
    ensures IsPermutation(Shuffled(s, draws, k), |s|)
  {
    if k > 0 {
      ShuffledIsPermutation(s, draws, k - 1);
      SwapPreservesPermutation(Shuffled(s, draws, k - 1), |s|, |s| - k, draws[k - 1]);
    }
  }

  /** Every prefix of the shuffle keeps each element it started with. */
  lemma {:induction false} ShuffledKeeps(s: seq<int>, draws: seq<int>, k: nat, x: int)
    requires DrawsFit(draws, |s|) && k <= Steps(|s|)
    requires x in s
    ensures x in Shuffled(s, draws, k)
  {
    if k > 0 {
      var before := Shuffled(s, draws, k - 1);
      ShuffledKeeps(s, draws, k - 1, x);
      var i, j := |s| - k, draws[k - 1];
      var at :| 0 <= at < |before| && before[at] == x;
      var to := if at == i then j else if at == j then i else at;
      assert Shuffled(s, draws, k)[to] == x;
    }
  }

  /** The visiting order is a permutation of the pixel indices: each index
      is in range, none repeats, and each pixel appears. */
  lemma PixelOrderIsPermutation(n: nat, draws: seq<int>)
    requires DrawsFit(draws, n)
    ensures IsPermutation(PixelOrderSpec(n, draws), n)
    ensures forall x :: 0 <= x < n ==> x in PixelOrderSpec(n, draws)
  {
    ShuffledIsPermutation(Iota(n), draws, Steps(n));
    forall x | 0 <= x < n
      ensures x in PixelOrderSpec(n, draws)
    {
      assert Iota(n)[x] == x;
      ShuffledKeeps(Iota(n), draws, Steps(n), x);
    }
  }

  /** One step of random.shuffle: exchange two cells of the list. */
  method SwapCells(a: array<int>, i: nat, j: nat)
    requires i < a.Length && j < a.Length
    modifies a
    ensures a[..] == Swap(old(a[..]), i, j)
  {
    a[i], a[j] := a[j], a[i];
  }

  /** list(range(n)) shuffled in place by Fisher-Yates with the given
      draws. */
  method ShuffleRange(n: nat, draws: seq<int>) returns (order: seq<int>)
    requires DrawsFit(draws, n)
    ensures order == PixelOrderSpec(n, draws)
  {
    var indices := new int[n](i => i);
    assert indices[..] == Iota(n);
    var k := 0;
    while k < Steps(n)
      invariant 0 <= k <= Steps(n)
      invariant indices[..] == Shuffled(Iota(n), draws, k)
    {
      SwapCells(indices, n - (k + 1), draws[k]);
      assert Shuffled(Iota(n), draws, k + 1) == Swap(Shuffled(Iota(n), draws, k), n - (k + 1), draws[k]);
      k := k + 1;
    }
    order := indices[..];
  }

  /** get_shuffled_pixel_order: the pixel indices 0 .. h*w-1 in shuffled
      order. */
  method ShuffledPixelOrder(h: nat, w: nat, draws: seq<int>) returns (order: seq<int>)
    requires DrawsFit(draws, h * w)
    ensures order == PixelOrderSpec(h * w, draws)
    ensures IsPermutation(order, h * w)
    ensures forall x :: 0 <= x < h * w ==> x in order
  {
    order := ShuffleRange(h * w, draws);
    PixelOrderIsPermutation(h * w, draws);
  }

  /** A pixel index names the pixel at row idx / w, column idx % w; the
      mapping is one-to-one, so distinct indices are distinct pixels. */
  lemma PixelCoordinates(h: nat, w: nat, idx: int)
    requires 0 <= idx < h * w
    ensures 0 <= idx / w < h && 0 <= idx % w < w
    ensures (idx / w) * w + idx % w == idx
  {
  }

  /** row = idx // w */
  function Row(h: nat, w: nat, idx: int): (row: nat)
    requires 0 <= idx < h * w
    ensures row < h
  {
    PixelCoordinates(h, w, idx);
    idx / w
  }

  /** col = idx % w */
  function Col(h: nat, w: nat, idx: int): (col: nat)
    requires 0 <= idx < h * w
    ensures col < w
  {
    PixelCoordinates(h, w, idx);
    idx % w
  }

  lemma CoordinatesInjective(h: nat, w: nat, a: int, b: int)
    requires 0 <= a < h * w && 0 <= b < h * w
    requires Row(h, w, a) == Row(h, w, b) && Col(h, w, a) == Col(h, w, b)
    ensures a == b
  {
    PixelCoordinates(h, w, a);
    PixelCoordinates(h, w, b);
  }
}

=== FILE: Steganography.dfy ===
/** The embedder and the extractor (embed_data_in_image,
    extract_data_from_image) over the decoded pixel buffer: an h x w x 3
    array of 8-bit channel values, indexed [row, column, channel].

    Both walk the same tape: bit i of the stream lives in channel chan[i]
    of the pixel perm[i], at row perm[i] / w and column perm[i] % w. In the
    source perm is the shuffled pixel order and chan[i] is the i-th draw of
    rng.choice([0, 1, 2]) from a generator seeded with the same password
    hash; one draw is made per bit, on embedding and on extraction alike. */
module Steganography {
  import opened Base
  import opened BitConversion
  import opened PixelOrder
  import opened BitStream

  /** str(value & 1): the least significant bit of a channel value, as a
      binary digit. */
  function Lsb(v: byte): (c: char)
    ensures c == '0' || c == '1'
    ensures BitOf(c) == (v as int) % 2
  {
    if v % 2 == 1 then '1' else '0'
  }

  /** (value & ~1) | bit: the channel value with its least significant bit
      replaced by the stream bit. The seven upper bits are kept. */
  function SetLsb(v: byte, bit: char): (r: byte)
    requires bit == '0' || bit == '1'
    ensures Lsb(r) == bit
    ensures r / 2 == v / 2
  {
    ((v as int) - (v as int) % 2 + BitOf(bit)) as byte
  }

  /** A tape for an image of n pixels: n positions, each naming a pixel
      index below n and a channel in {0, 1, 2}. */
  predicate TapeFits(perm: seq<int>, chan: seq<int>, n: nat)
  {
    |perm| == n && |chan| == n &&
    forall i :: 0 <= i < n ==> 0 <= perm[i] < n && 0 <= chan[i] < 3
  }

  /** An RGB buffer with a tape for its pixels. */
  predicate Readable(data: array3<byte>, perm: seq<int>, chan: seq<int>)
  {
    data.Length2 == 3 && TapeFits(perm, chan, data.Length0 * data.Length1)
  }

  /** Whether one of the first m tape positions falls on channel k of the
      pixel at (row, col). */
  predicate Written(perm: seq<int>, chan: seq<int>, h: nat, w: nat, m: nat, row: int, col: int, k: int)
    requires TapeFits(perm, chan, h * w) && m <= |perm|
  {
    exists i :: 0 <= i < m && Row(h, w, perm[i]) == row && Col(h, w, perm[i]) == col && chan[i] == k
  }

  /** The channel value at tape position i. */
  function TapeCell(data: array3<byte>, perm: seq<int>, chan: seq<int>, i: nat): byte
    reads data
    requires Readable(data, perm, chan) && i < |perm|
  {
    data[Row(data.Length0, data.Length1, perm[i]), Col(data.Length0, data.Length1, perm[i]), chan[i]]
  }

  /** The bit found at tape position i. */
  function TapeBit(data: array3<byte>, perm: seq<int>, chan: seq<int>, i: nat): char
    reads data
    requires Readable(data, perm, chan) && i < |perm|
  {
    Lsb(TapeCell(data, perm, chan, i))
  }

  /** The bits found at tape positions lo .. hi-1, in order. */
  function TapeBits(data: array3<byte>, perm: seq<int>, chan: seq<int>, lo: nat, hi: nat): (s: seq<char>)
    reads data
    requires Readable(data, perm, chan) && lo <= hi <= |perm|
    ensures |s| == hi - lo
    ensures IsBitString(s)
    decreases hi - lo
  {
    if lo == hi then []
    else TapeBits(data, perm, chan, lo, hi - 1) + [TapeBit(data, perm, chan, hi - 1)]
  }

  /** What the extractor finds in the image: the whole tape, unpacked. It
      fails exactly when the image has fewer than 32 pixels or the count in
      the first 32 tape bits asks for more bits than there are pixels. */
  function Extracted(data: array3<byte>, perm: seq<int>, chan: seq<int>): (r: Result<seq<byte>>)
    reads data
    requires Readable(data, perm, chan)
    ensures r.Err? <==>
      (|perm| < PrefixWidth ||
       PrefixWidth + 8 * BinaryToInt(TapeBits(data, perm, chan, 0, |perm|)[..PrefixWidth]) > |perm|)
    ensures r.Err? ==> r.error == ExtractionError
  {
    Unpack(TapeBits(data, perm, chan, 0, |perm|))
  }

  lemma {:induction false} TapeBitsAt(data: array3<byte>, perm: seq<int>, chan: seq<int>, lo: nat, hi: nat, k: nat)
    requires Readable(data, perm, chan) && lo <= hi <= |perm| && k < hi - lo
    ensures TapeBits(data, perm, chan, lo, hi)[k] == TapeBit(data, perm, chan, lo + k)
    decreases hi - lo
  {
    if k < hi - lo - 1 {
      TapeBitsAt(data, perm, chan, lo, hi - 1, k);
    }
  }

  /** Reading a stretch of the whole tape is reading that stretch. */
  lemma TapeBitsSlice(data: array3<byte>, perm: seq<int>, chan: seq<int>, lo: nat, hi: nat)
    requires Readable(data, perm, chan) && lo <= hi <= |perm|
    ensures TapeBits(data, perm, chan, 0, |perm|)[lo..hi] == TapeBits(data, perm, chan, lo, hi)
    ensures TapeBits(data, perm, chan, 0, |perm|)[..hi] == TapeBits(data, perm, chan, 0, hi)
  {
    var whole, part := TapeBits(data, perm, chan, 0, |perm|), TapeBits(data, perm, chan, lo, hi);
    forall k | 0 <= k < hi - lo
      ensures whole[lo + k] == part[k]
    {
      TapeBitsAt(data, perm, chan, 0, |perm|, lo + k);
      TapeBitsAt(data, perm, chan, lo, hi, k);
    }
    forall k | 0 <= k < hi
      ensures whole[k] == TapeBits(data, perm, chan, 0, hi)[k]
    {
      TapeBitsAt(data, perm, chan, 0, |perm|, k);
      TapeBitsAt(data, perm, chan, 0, hi, k);
    }
  }

  /** One reading loop of extract_data_from_image: the bits at tape
      positions lo .. hi-1, accumulated in order. */
  method ReadBits(data: array3<byte>, perm: seq<int>, chan: seq<int>, lo: nat, hi: nat) returns (bits: seq<char>)
    requires Readable(data, perm, chan) && lo <= hi <= |perm|
    ensures bits == TapeBits(data, perm, chan, lo, hi)
  {
    var h, w := data.Length0, data.Length1;
    bits := [];
    var i := lo;
    while i < hi
      invariant lo <= i <= hi
      invariant bits == TapeBits(data, perm, chan, lo, i)
    {
      var idx := perm[i];
      var row, col := Row(h, w, idx), Col(h, w, idx);
      var channel := chan[i];
      bits := bits + [Lsb(data[row, col, channel])];
      i := i + 1;
    }
  }

  /** extract_data_from_image: read 32 bits along the tape for the byte
      count L, then the next 8L bits, and group them into bytes. The source
      does not check L against the image; a count that runs past the
      pixel order fails there with an index error, which this model reports
      as ExtractionError before reading any payload bit. */
  method ExtractData(data: array3<byte>, perm: seq<int>, chan: seq<int>) returns (r: Result<seq<byte>>)
    requires Readable(data, perm, chan)
    ensures r == Extracted(data, perm, chan)
    ensures r.Ok? ==> PrefixWidth + 8 * |r.value| <= |perm|
  {
    if |perm| < PrefixWidth {
      return Err(ExtractionError);
    }
    var lengthBits := ReadBits(data, perm, chan, 0, PrefixWidth);
    TapeBitsSlice(data, perm, chan, 0, PrefixWidth);
    var count := BinaryToInt(lengthBits);
    if PrefixWidth + 8 * count > |perm| {
      return Err(ExtractionError);
    }
    var bits := ReadBits(data, perm, chan, PrefixWidth, PrefixWidth + 8 * count);
    TapeBitsSlice(data, perm, chan, PrefixWidth, PrefixWidth + 8 * count);
    UnpackOk(TapeBits(data, perm, chan, 0, |perm|), count, bits);
    WholeBytes(count);
    r := Ok(ConvertToBytes(bits));
  }

  /** One step of the embedding loop: the channel at tape position i gets
      the bit as its least significant bit, and no other channel changes. */
  method WriteBit(data: array3<byte>, perm: seq<int>, chan: seq<int>, i: nat, bit: char)
    requires Readable(data, perm, chan) && i < |perm|
    requires bit == '0' || bit == '1'
    modifies data
    ensures TapeCell(data, perm, chan, i) == SetLsb(old(TapeCell(data, perm, chan, i)), bit)
    ensures var h, w := data.Length0, data.Length1;
      forall row, col, k ::
        0 <= row < h && 0 <= col < w && 0 <= k < 3 &&
        (row != Row(h, w, perm[i]) || col != Col(h, w, perm[i]) || k != chan[i])
        ==> data[row, col, k] == old(data[row, col, k])
  {
    var h, w := data.Length0, data.Length1;
    var idx := perm[i];
    var row, col := Row(h, w, idx), Col(h, w, idx);
    var channel := chan[i];
    data[row, col, channel] := SetLsb(data[row, col, channel], bit);
  }

  /** A tape whose every bit agrees with a stream reads back that stream. */
  lemma {:induction false} TapeBitsMatch(data: array3<byte>, perm: seq<int>, chan: seq<int>, bits: seq<char>)
    requires Readable(data, perm, chan) && |bits| <= |perm|
    requires forall i :: 0 <= i < |bits| ==> TapeBit(data, perm, chan, i) == bits[i]
    ensures TapeBits(data, perm, chan, 0, |bits|) == bits
  {
    if bits != [] {
      var init := bits[..|bits| - 1];
      TapeBitsMatch(data, perm, chan, init);
      assert bits == init + [bits[|bits| - 1]];
    }
  }

  /** The loop of embed_data_in_image: bit i of the stream goes into the
      least significant bit of channel chan[i] of pixel perm[i]. Because
      the visiting order repeats no pixel, a later write never disturbs an
      earlier one. */
  method WriteBits(data: array3<byte>, perm: seq<int>, chan: seq<int>, bits: seq<char>)
    requires Readable(data, perm, chan) && IsPermutation(perm, data.Length0 * data.Length1)
    requires IsBitString(bits) && |bits| <= |perm|
    modifies data
    ensures forall i :: 0 <= i < |bits| ==>
      TapeCell(data, perm, chan, i) == SetLsb(old(TapeCell(data, perm, chan, i)), bits[i])
    ensures var h, w := data.Length0, data.Length1;
      forall row, col, k ::
        0 <= row < h && 0 <= col < w && 0 <= k < 3 && !Written(perm, chan, h, w, |bits|, row, col, k)
        ==> data[row, col, k] == old(data[row, col, k])
  {
    var h, w := data.Length0, data.Length1;
    var i := 0;
    while i < |bits|
      invariant 0 <= i <= |bits|
      invariant forall j :: 0 <= j < i ==>
        TapeCell(data, perm, chan, j) == SetLsb(old(TapeCell(data, perm, chan, j)), bits[j])
      invariant forall row, col, k ::
        0 <= row < h && 0 <= col < w && 0 <= k < 3 && !Written(perm, chan, h, w, i, row, col, k)
        ==> data[row, col, k] == old(data[row, col, k])
    {
      var idx := perm[i];
      var row, col := Row(h, w, idx), Col(h, w, idx);
      var channel := chan[i];
      forall j | 0 <= j < i
        ensures Row(h, w, perm[j]) != row || Col(h, w, perm[j]) != col
      {
        if Row(h, w, perm[j]) == row && Col(h, w, perm[j]) == col {
          CoordinatesInjective(h, w, perm[j], idx);
        }
      }
      assert !Written(perm, chan, h, w, i, row, col, channel);
      label Before:
      WriteBit(data, perm, chan, i, bits[i]);
      forall j | 0 <= j < i
        ensures TapeCell(data, perm, chan, j) == old@Before(TapeCell(data, perm, chan, j))
      {
      }
      i := i + 1;
    }
  }

  /** embed_data_in_image: build the stream, refuse it when it is longer
      than the pixel order, before any write; otherwise write it along the
      tape. On success the tape reads back the stream, the written channels
      keep their upper seven bits, and every channel no tape position
      reached keeps its value. */
  method EmbedData(data: array3<byte>, cipher: seq<byte>, padding: seq<char>, perm: seq<int>, chan: seq<int>)
      returns (r: Outcome)
    requires Readable(data, perm, chan) && IsPermutation(perm, data.Length0 * data.Length1)
    requires IsBitString(padding) && |padding| == PaddingCount(|cipher|)
    modifies data
    ensures r.Fail? <==> |FullBits(cipher, padding)| > |perm|
    ensures r.Fail? ==> r.error == CapacityError && unchanged(data)
    ensures r.Pass? ==>
      var bits := FullBits(cipher, padding);
      TapeBits(data, perm, chan, 0, |bits|) == bits
    ensures r.Pass? ==>
      var bits := FullBits(cipher, padding);
      forall i :: 0 <= i < |bits| ==>
        TapeCell(data, perm, chan, i) == SetLsb(old(TapeCell(data, perm, chan, i)), bits[i])
    ensures r.Pass? ==>
      var m, h, w := |FullBits(cipher, padding)|, data.Length0, data.Length1;
      forall row, col, k ::
        0 <= row < h && 0 <= col < w && 0 <= k < 3 && !Written(perm, chan, h, w, m, row, col, k)
        ==> data[row, col, k] == old(data[row, col, k])
  {
    var bits := FullBits(cipher, padding);
    if |bits| > |perm| {
      return Fail(CapacityError);
    }
    WriteBits(data, perm, chan, bits);
    r := Pass;
    TapeBitsMatch(data, perm, chan, bits);
  }

  /** The round trip of the engine: once the tape reads back the stream
      (what EmbedData promises), the extractor's reading of the whole tape
      is the ciphertext, whatever the padding bits were, for a ciphertext
      shorter than 2^32 bytes. */
  lemma EmbedExtractRoundTrip(data: array3<byte>, cipher: seq<byte>, padding: seq<char>, perm: seq<int>, chan: seq<int>)
    requires Readable(data, perm, chan)
    requires IsBitString(padding) && |padding| == PaddingCount(|cipher|)
    requires |cipher| < PrefixLimit
    requires |FullBits(cipher, padding)| <= |perm|
    requires TapeBits(data, perm, chan, 0, |FullBits(cipher, padding)|) == FullBits(cipher, padding)
    ensures Extracted(data, perm, chan) == Ok(cipher)
  {
    TapeBitsSlice(data, perm, chan, 0, |FullBits(cipher, padding)|);
    UnpackFullBits(cipher, padding, TapeBits(data, perm, chan, 0, |perm|));
  }

  /** The engine end to end, for one password: both sides derive the same
      pixel order (get_shuffled_pixel_order with the same draws) and the
      same channel draws; the embedder writes the stream into the image and
      the extractor reads the ciphertext back from the result. */
  method EmbedThenExtract(data: array3<byte>, cipher: seq<byte>, padding: seq<char>, draws: seq<int>, chan: seq<int>)
      returns (r: Result<seq<byte>>)
    requires data.Length2 == 3 && DrawsFit(draws, data.Length0 * data.Length1)
    requires |chan| == data.Length0 * data.Length1 && forall i :: 0 <= i < |chan| ==> 0 <= chan[i] < 3
    requires IsBitString(padding) && |padding| == PaddingCount(|cipher|)
    requires |cipher| < PrefixLimit
    modifies data
    ensures |FullBits(cipher, padding)| > data.Length0 * data.Length1 ==>
      r == Err(CapacityError) && unchanged(data)
    ensures |FullBits(cipher, padding)| <= data.Length0 * data.Length1 ==> r == Ok(cipher)
  {
    var perm := ShuffledPixelOrder(data.Length0, data.Length1, draws);
    var embedded := EmbedData(data, cipher, padding, perm, chan);
    if embedded.Fail? {
      return Err(CapacityError);
    }
    EmbedExtractRoundTrip(data, cipher, padding, perm, chan);
    r := ExtractData(data, perm, chan);
  }
}
